=== FILE: README.md ===
# Refreshable scroll view: refresh-lifecycle controller

A Dafny model of the controller inside `RefreshableScrollView`, a
pull-to-refresh wrapper around a React Native scroll view. The controller
watches touch and scroll events on the wrapped scroll view and derives a
pull progress in [0, 1]. When progress reaches 1 it starts a refresh and calls
the caller's `onRefreshStart` with a completion callback. When that completion
runs, it ends the refresh and scrolls back. While the indicator must stay
visible, it widens the content inset on the leading edge of the pull axis.

Modules:

- `Wrappers`: `Option`, used for the not-yet-measured indicator end and the optional explicit distance.
- `Geometry`: insets, offsets and the indicator's layout rectangle. It also holds pull-axis selection (`left`/`x` when horizontal, `top`/`y` otherwise) and the indicator end taken from a measured layout.
- `Progress`: the activation threshold and the pull progress of one scroll tick, with JavaScript numbers as `real`.
- `Controller`: the state record (`tracking`, `trackingAfterRefreshing`, `pullToRefreshProgress`, `refreshing`, `refreshIndicatorEnd`, plus the recorded native inset). It has one pure function per handler. A handler's outward calls are returned as a list of `Effect`s: `RefreshStart` for `onRefreshStart`, `ScrollBack` for the scroll issued when a refresh ends. The module also holds the content inset the render applies.
- `Session`: event sequences dispatched one handler at a time, and what holds over any such run.

React's `setState` is modelled as an immediate, synchronous update. The scroll
handler decides `beginRefreshing` from `this.state.refreshing`, but its
updater reads the pending `state.refreshing`. Both are the same value only under
this reading. That is an assumption of the model, not something the source
guarantees.

JavaScript's `null` indicator end is coerced to 0 both in the threshold
arithmetic and in `Math.max`. The model writes this coercion out as
`Progress.EndOrZero`.

## Model

| member | source | states |
|---|---|---|
| Geometry.WithAxisInset | RefreshableScrollView.js:63-68 | only the leading pull-axis side (`left` when horizontal, `top` otherwise) is replaced; the three other sides are kept |
| Progress.ZeroDistanceFallsThrough | RefreshableScrollView.js:147-149 | an explicit `pullToRefreshDistance` of 0 is falsy and gives the same threshold as no explicit distance |
| Progress.Clamp | RefreshableScrollView.js:153 | the result lies in [0,1], equals its argument inside that range, and saturates at each bound outside it |
| Progress.PullProgress | RefreshableScrollView.js:138-157 | progress is always in [0,1]; it is 0 when no threshold is known and 1 for a non-positive threshold; for a positive threshold it is 1 exactly when the pull reaches the threshold, 0 exactly when there is no pull, and the pull/threshold fraction in between |
| Progress.ProgressMonotone | RefreshableScrollView.js:146-156 | with everything else fixed, pulling further never lowers progress |
| Progress.ShallowIndicatorIsImmediatelyReady | RefreshableScrollView.js:147-156 | with no explicit distance, an indicator ending at or before the axis inset gives progress 1 on any offset |
| Progress.ProgressExample | RefreshableScrollView.js:142-153 | zero inset, offset -50 and indicator end 40 give threshold 80 and progress 0.625 |
| Controller.Init | RefreshableScrollView.js:41-49 | the controller starts with all flags false, progress 0, and nothing measured or recorded |
| Controller.HandleGrant | RefreshableScrollView.js:108-116 | a grant starts tracking and sets `trackingAfterRefreshing` to `refreshing` at grant time; it changes neither `refreshing` nor progress |
| Controller.HandleRelease | RefreshableScrollView.js:118-126 | a release clears both tracking flags; it changes neither `refreshing` nor progress |
| Controller.HandleScroll | RefreshableScrollView.js:128-167 | the native inset is always recorded. Without tracking, nothing else changes and no callback is made. With tracking, progress is recomputed and `refreshing' = refreshing or progress = 1`. `onRefreshStart` is called, at most once, exactly when tracking, not yet refreshing and the new progress is 1 |
| Controller.HandleRefreshEnd | RefreshableScrollView.js:169-175 | while refreshing, completion clears `refreshing` and issues exactly one scroll back; otherwise it changes nothing and issues no scroll |
| Controller.HandleMeasured | RefreshableScrollView.js:182-184 | a measurement records the indicator's far edge along the pull axis as the indicator end and changes nothing else |
| Controller.AppliedContentInset | RefreshableScrollView.js:59-69 | when reserving, the leading pull-axis inset becomes the larger of the indicator end and the declared value; otherwise the declared inset passes through; the other sides are never modified |
| Controller.ReservationSimplified | RefreshableScrollView.js:61-62 | the render's flag combination is the same as "refreshing without a touch, or a touch that began during a refresh" |
| Controller.RefreshEndIdempotent | RefreshableScrollView.js:169-175 | calling the completion a second time changes nothing and issues no scroll |
| Controller.NoSecondStartWhileRefreshing | RefreshableScrollView.js:159-166 | after a tick that called `onRefreshStart`, the next tick calls nothing |
| Controller.UnknownThresholdNeverStarts | RefreshableScrollView.js:138-164 | with neither an explicit distance nor a measured indicator, a tick gives progress 0 and cannot begin a refresh |
| Controller.ReservationWaitsForRelease | RefreshableScrollView.js:61-125 | a refresh that begins during a pull started outside a refresh reserves no space while the touch lasts; the release then reserves it |
| Controller.GrantReservesIffRefreshing | RefreshableScrollView.js:61-115 | right after a grant, space is reserved exactly when a refresh is running |
| Controller.MeasuredShallowIndicatorStarts | RefreshableScrollView.js:147-165 | with no explicit distance, once the measured indicator's far edge (`left+width` or `top+height`, line 183) lies at or before the axis inset, the next tracked tick calls `onRefreshStart` at any offset |
| Controller.MeasuredIndicatorSetsThreshold | RefreshableScrollView.js:146-165 | with no explicit distance and a measured indicator reaching past the inset, a tracked tick calls `onRefreshStart` exactly when the pull covers twice the indicator's part beyond the inset |
| Controller.UnmeasuredReservationIsNoOp | RefreshableScrollView.js:61-68 | before measurement the `null` end reads as 0 in `Math.max`, so reservation over a non-negative declared inset leaves it unchanged |
| Session.DispatchBalance | RefreshableScrollView.js:159-175 | one event calls `onRefreshStart` once exactly when it turns `refreshing` on (never otherwise), and scrolls back once exactly when it turns it off (never otherwise) |
| Session.RunBalance | RefreshableScrollView.js:159-175 | over any event sequence, start calls minus scroll backs equals the net change of `refreshing` |
| Session.RunAlternates | RefreshableScrollView.js:159-175 | over any event sequence the outward calls alternate between `onRefreshStart` and the scroll back, beginning with whichever flips the initial `refreshing`, and the final `refreshing` is the initial one flipped once per call |
| Session.StartsOncePerSession | RefreshableScrollView.js:159-175 | from the initial state the calls are start, scroll back, start, scroll back, … in that order, so `onRefreshStart` is never called twice in one session; start calls exceed scroll backs by one exactly while a refresh runs |
| Session.DispatchPreservesValid | RefreshableScrollView.js:108-187 | every handler keeps progress in [0,1] and `trackingAfterRefreshing` only while tracking |
| Session.RunPreservesValid | RefreshableScrollView.js:108-187 | any event sequence from a well-formed state ends in a well-formed state |
| Session.ReachableReservation | RefreshableScrollView.js:59-126 | in every reachable state, space is reserved while no refresh runs only when a touch is still tracked (one that began during the refresh that has since ended) |
| Session.FrozenWhileNotTracking | RefreshableScrollView.js:118-136 | after a release and until the next grant, progress keeps its value and `onRefreshStart` is never called |

## Behaviour of the code worth noting

- An explicit `pullToRefreshDistance` of 0 is falsy, so the threshold derived from the indicator applies instead (`Progress.ZeroDistanceFallsThrough`).
- With neither an explicit distance nor a measured indicator, progress stays 0 and no refresh can begin (`Controller.UnknownThresholdNeverStarts`).
- A scroll tick without tracking leaves progress where it was, even after a release, until the next grant (`Session.FrozenWhileNotTracking`).
- With an explicit 0 distance and no measured indicator, the `null` end reads as 0. The threshold is then `-2 × axis inset`, which is non-positive for a non-negative inset, so progress is 1.

## Left out

- `RefreshIndicator.js`: a purely presentational widget (progress to rotation), not part of the controller.
- The native measurement plumbing: `UIManager.measureLayoutRelativeToParent`, its error callback, `requestAnimationFrame` and `React.findNodeHandle`. These are asynchronous native I/O. Only the measured rectangle reaches the model, through `Controller.HandleMeasured`.
- React and host plumbing: element cloning and refs, the scrollable and timer mixins, `getScrollResponder` and `setNativeProps`, styles, and the forwarding of `onScroll`, `onResponderGrant` and `onResponderRelease` to the caller. None of them changes the controller's state.
- The destination of the scroll issued when a refresh ends. The code hard-codes `scrollTo(-64, 0)` and marks it as wrong in a comment. The model records only that one scroll is issued (`ScrollBack`).
- The props passed to `renderRefreshIndicator` (progress and `refreshing`) are read straight from the state and are not modelled as a separate function.
- Waiting to settle, returning to top, momentum-end handling, the safety timer and per-side inset-adjustment deltas: not present in this version of the component.
- JavaScript coercion beyond `null`-as-0: NaN and `undefined` are not modelled. An absent `contentInset` prop gives `Math.max(end, undefined)`, which is NaN. The model requires a declared inset record with all four sides, so it cannot express that case.
- Props are fixed for a whole event sequence (`Session.Run` takes one `Props`). The source reads `this.props` afresh in each handler (lines 139, 143, 147, 183), so a change to `horizontal`, `pullToRefreshDistance` or `contentInset` between events is not modelled.
- Concurrency: React may batch `setState` calls; the model applies each update immediately. Under batching, a caller that calls the completion synchronously inside `onRefreshStart` (line 165) reaches the `this.state.refreshing` test at line 170 while it is still false. That call does nothing and `refreshing` stays true. In the model, a scroll that starts a refresh followed by `RefreshEnd` ends the refresh.
- Floating point: numbers are exact reals. IEEE-754 rounding and ±Infinity are not modelled. The `> 0` test at line 151 and the `=== 1` test at line 159 compare rounded doubles, so boundaries such as `pull >= 2 × (end − inset)` in `Controller.MeasuredIndicatorSetsThreshold` are exact only in the model.

=== FILE: controller.dfy ===
/** The refresh-lifecycle controller: its state, the handlers that change it
    (responder grant and release, scroll, refresh end, indicator
    measurement) and the content inset it renders with.

    Every handler is a pure function from the old state to the new one;
    React's `setState` is read as an immediate update. Every read of
    `this.state` in these handlers comes before their `setState` call, so
    each read sees the state the handler started from. */
module Controller {
  import opened Wrappers
  import opened Geometry
  import opened Progress

  /** The caller's configuration: orientation, optional explicit threshold
      and the declared content inset. */
  datatype Props = Props(horizontal: bool, pullToRefreshDistance: Option<real>,
                         contentInset: Insets)

  /** The component state plus the native inset recorded on every scroll. */
  datatype ViewState = ViewState(
    tracking: bool,
    trackingAfterRefreshing: bool,
    pullToRefreshProgress: real,
    refreshing: bool,
    refreshIndicatorEnd: Option<real>,
    nativeContentInset: Option<Insets>)

  /** What a scroll tick reports. */
  datatype ScrollEvent = ScrollEvent(contentInset: Insets, contentOffset: Point,
                                     nativeContentInset: Insets)

  /** Calls the controller makes outward: the caller's refresh-start
      callback, and a scroll back towards the top when a refresh ends. */
  datatype Effect = RefreshStart | ScrollBack

  /** The state after a handler together with the calls it made, in order. */
  datatype Outcome = Outcome(state: ViewState, effects: seq<Effect>)

  /** All flags off, no progress, nothing measured or recorded yet. */
  function Init(): (s: ViewState)
    ensures !s.tracking && !s.trackingAfterRefreshing && !s.refreshing
    ensures s.pullToRefreshProgress == 0.0
    ensures s.refreshIndicatorEnd.None? && s.nativeContentInset.None?
  {
    ViewState(false, false, 0.0, false, None, None)
  }

  /** A touch engages the scroll view: tracking starts, and whether a refresh
      was already under way is remembered. */
  function HandleGrant(s: ViewState): (r: ViewState)
    ensures r.tracking
    ensures r.trackingAfterRefreshing <==> s.refreshing
    ensures r.refreshing == s.refreshing
    ensures r.pullToRefreshProgress == s.pullToRefreshProgress
    ensures r.refreshIndicatorEnd == s.refreshIndicatorEnd
    ensures r.nativeContentInset == s.nativeContentInset
  {
    s.(tracking := true, trackingAfterRefreshing := s.refreshing)
  }

  /** The touch ends: both tracking flags drop. */
  function HandleRelease(s: ViewState): (r: ViewState)
    ensures !r.tracking && !r.trackingAfterRefreshing
    ensures r.refreshing == s.refreshing
    ensures r.pullToRefreshProgress == s.pullToRefreshProgress
    ensures r.refreshIndicatorEnd == s.refreshIndicatorEnd
    ensures r.nativeContentInset == s.nativeContentInset
  {
    s.(tracking := false, trackingAfterRefreshing := false)
  }

  /** The progress a scroll tick computes from the current props and state. */
  function TickProgress(p: Props, s: ViewState, e: ScrollEvent): real {
    PullProgress(p.horizontal, p.pullToRefreshDistance, s.refreshIndicatorEnd,
                 e.contentInset, e.contentOffset)
  }

  /** A scroll tick. The native inset is always recorded; when no touch is
      tracked nothing else happens. Otherwise progress is recomputed, a
      refresh begins once progress reaches 1, and the caller's refresh-start
      callback is called only by the tick on which `refreshing` turns on. */
  function HandleScroll(p: Props, s: ViewState, e: ScrollEvent): (o: Outcome)
    ensures o.state.nativeContentInset == Some(e.nativeContentInset)
    ensures o.state.tracking == s.tracking
    ensures o.state.trackingAfterRefreshing == s.trackingAfterRefreshing
    ensures o.state.refreshIndicatorEnd == s.refreshIndicatorEnd
    ensures !s.tracking ==>
              && o.effects == []
              && o.state.pullToRefreshProgress == s.pullToRefreshProgress
              && o.state.refreshing == s.refreshing
    ensures s.tracking ==>
              && o.state.pullToRefreshProgress == TickProgress(p, s, e)
              && (o.state.refreshing <==> s.refreshing || o.state.pullToRefreshProgress == 1.0)
    ensures RefreshStart in o.effects <==>
              s.tracking && !s.refreshing && o.state.pullToRefreshProgress == 1.0
    ensures o.effects == [] || o.effects == [RefreshStart]
    ensures RefreshStart in o.effects ==> o.state.refreshing
  {
    var s1 := s.(nativeContentInset := Some(e.nativeContentInset));
    if !s.tracking then Outcome(s1, [])
    else
      var progress := TickProgress(p, s, e);
      var beginRefreshing := !s.refreshing && progress == 1.0;
      var s2 := s1.(pullToRefreshProgress := progress,
                    refreshing := s.refreshing || progress == 1.0);
      Outcome(s2, if beginRefreshing then [RefreshStart] else [])
  }

  /** The completion handed to the caller. While refreshing it clears the
      flag and scrolls back once; otherwise it does nothing at all. */
  function HandleRefreshEnd(s: ViewState): (o: Outcome)
    ensures !o.state.refreshing
    ensures s.refreshing ==> o.state == s.(refreshing := false) && o.effects == [ScrollBack]
    ensures !s.refreshing ==> o.state == s && o.effects == []
  {
    if s.refreshing then Outcome(s.(refreshing := false), [ScrollBack])
    else Outcome(s, [])
  }

  /** The indicator's layout has been measured: its far edge along the pull
      axis becomes the known indicator end; nothing else changes. */
  function HandleMeasured(p: Props, s: ViewState, l: Layout): (r: ViewState)
    ensures r.refreshIndicatorEnd.Some?
    ensures p.horizontal ==> r.refreshIndicatorEnd.value - l.left == l.width
    ensures !p.horizontal ==> r.refreshIndicatorEnd.value - l.top == l.height
    ensures r.(refreshIndicatorEnd := s.refreshIndicatorEnd) == s
  {
    s.(refreshIndicatorEnd := Some(IndicatorEnd(p.horizontal, l)))
  }

  /** Whether the render reserves room for the indicator: while a refresh
      runs with no touch, or with a touch that began during a refresh; and
      while a touch that began during a refresh continues after it ended. */
  predicate ReservesIndicatorSpace(s: ViewState) {
    || (s.refreshing && (!s.tracking || s.trackingAfterRefreshing))
    || (!s.refreshing && s.trackingAfterRefreshing)
  }

  /** The content inset handed to the wrapped scroll view. When reserving,
      the leading pull-axis side is raised to the indicator end (never
      lowered below what the caller declared); otherwise the declared inset
      passes through. The other sides are never touched. */
  function AppliedContentInset(p: Props, s: ViewState): (r: Insets)
    ensures !ReservesIndicatorSpace(s) ==> r == p.contentInset
    ensures var applied := AxisInset(p.horizontal, r);
            var declared := AxisInset(p.horizontal, p.contentInset);
            ReservesIndicatorSpace(s) ==>
              && applied >= declared
              && applied >= EndOrZero(s.refreshIndicatorEnd)
              && (applied == declared || applied == EndOrZero(s.refreshIndicatorEnd))
    ensures r.bottom == p.contentInset.bottom && r.right == p.contentInset.right
    ensures p.horizontal ==> r.top == p.contentInset.top
    ensures !p.horizontal ==> r.left == p.contentInset.left
  {
    if ReservesIndicatorSpace(s) then
      var declared := AxisInset(p.horizontal, p.contentInset);
      var end := EndOrZero(s.refreshIndicatorEnd);
      WithAxisInset(p.horizontal, p.contentInset, if end >= declared then end else declared)
    else p.contentInset
  }

  /** The reservation condition, simplified: a refresh with no touch, or any
      touch that began during a refresh. */
  lemma ReservationSimplified(s: ViewState)
    ensures ReservesIndicatorSpace(s) <==>
              (s.refreshing && !s.tracking) || s.trackingAfterRefreshing
  {
  }

  /** Completing a refresh twice has the effect of completing it once: the
      second call changes nothing and scrolls nowhere. */
  lemma RefreshEndIdempotent(s: ViewState)
    ensures var once := HandleRefreshEnd(s);
            HandleRefreshEnd(once.state) == Outcome(once.state, [])
  {
  }

  /** Once a tick has started a refresh, the next tick does not call the
      refresh-start callback again. */
  lemma NoSecondStartWhileRefreshing(p: Props, s: ViewState, e1: ScrollEvent, e2: ScrollEvent)
    requires RefreshStart in HandleScroll(p, s, e1).effects
    ensures HandleScroll(p, HandleScroll(p, s, e1).state, e2).effects == []
  {
  }

  /** With neither an explicit distance nor a measured indicator, a tick
      reports no progress and cannot begin a refresh. */
  lemma UnknownThresholdNeverStarts(p: Props, s: ViewState, e: ScrollEvent)
    requires p.pullToRefreshDistance.None? && s.refreshIndicatorEnd.None?
    ensures s.tracking ==> HandleScroll(p, s, e).state.pullToRefreshProgress == 0.0
    ensures HandleScroll(p, s, e).effects == []
  {
  }

  /** A refresh that begins during a pull that started outside a refresh does
      not reserve space while the finger is down; releasing then reserves it. */
  lemma ReservationWaitsForRelease(p: Props, s: ViewState, e: ScrollEvent)
    requires s.tracking && !s.trackingAfterRefreshing
    requires RefreshStart in HandleScroll(p, s, e).effects
    ensures !ReservesIndicatorSpace(HandleScroll(p, s, e).state)
    ensures ReservesIndicatorSpace(HandleRelease(HandleScroll(p, s, e).state))
  {
  }

  /** A grant reserves space exactly when a refresh is running. */
  lemma GrantReservesIffRefreshing(s: ViewState)
    ensures ReservesIndicatorSpace(HandleGrant(s)) <==> s.refreshing
  {
  }

  /** With no explicit distance, a measured indicator whose far edge does not
      reach past the tick's axis inset makes the next tracked tick start a
      refresh, whatever the offset. */
  lemma MeasuredShallowIndicatorStarts(p: Props, s: ViewState, l: Layout, e: ScrollEvent)
    requires p.pullToRefreshDistance.None?
    requires s.tracking && !s.refreshing
    requires IndicatorEnd(p.horizontal, l) <= AxisInset(p.horizontal, e.contentInset)
    ensures HandleScroll(p, HandleMeasured(p, s, l), e).effects == [RefreshStart]
  {
  }

  /** With no explicit distance and a measured indicator reaching past the
      inset, a tracked tick starts a refresh exactly when the pull covers
      twice the part of the indicator beyond the inset. */
  lemma MeasuredIndicatorSetsThreshold(p: Props, s: ViewState, l: Layout, e: ScrollEvent)
    requires p.pullToRefreshDistance.None?
    requires s.tracking && !s.refreshing
    requires IndicatorEnd(p.horizontal, l) > AxisInset(p.horizontal, e.contentInset)
    ensures var axisInset := AxisInset(p.horizontal, e.contentInset);
            var pull := PullDistance(axisInset, AxisOffset(p.horizontal, e.contentOffset));
            (RefreshStart in HandleScroll(p, HandleMeasured(p, s, l), e).effects <==>
             pull >= 2.0 * (IndicatorEnd(p.horizontal, l) - axisInset))
  {
  }

  /** Before the indicator is measured its end reads as 0, so reserving over a
      non-negative declared inset leaves the declared inset unchanged. */
  lemma UnmeasuredReservationIsNoOp(p: Props, s: ViewState)
    requires s.refreshIndicatorEnd.None?
    requires AxisInset(p.horizontal, p.contentInset) >= 0.0
    ensures AppliedContentInset(p, s) == p.contentInset
  {
  }
}

=== FILE: geometry.dfy ===
/** Plain geometry the scroll view reports: per-side insets, a content
    offset, and the layout rectangle of the refresh indicator. The pull
    axis is the horizontal one (left edge, x offset) for a horizontal
    scroll view and the vertical one (top edge, y offset) otherwise. */
module Geometry {

  /** Extra padding at each edge of the scroll view's viewport. */
  datatype Insets = Insets(top: real, left: real, bottom: real, right: real)

  /** A content offset; negative values mean content pulled past its edge. */
  datatype Point = Point(x: real, y: real)

  /** The rectangle of the refresh indicator relative to its parent. */
  datatype Layout = Layout(left: real, top: real, width: real, height: real)

  /** The inset on the leading edge of the pull axis. */
  function AxisInset(horizontal: bool, i: Insets): real {
    if horizontal then i.left else i.top
  }

  /** The offset along the pull axis. */
  function AxisOffset(horizontal: bool, p: Point): real {
    if horizontal then p.x else p.y
  }

  /** `i` with its leading pull-axis inset replaced by `v`; the other three
      sides are kept. */
  function WithAxisInset(horizontal: bool, i: Insets, v: real): (r: Insets)
    ensures AxisInset(horizontal, r) == v
    ensures r.bottom == i.bottom && r.right == i.right
    ensures horizontal ==> r.top == i.top
    ensures !horizontal ==> r.left == i.left
  {
    if horizontal then i.(left := v) else i.(top := v)
  }

  /** The far edge of the indicator along the pull axis: where the space the
      indicator occupies ends, measured from the parent's leading edge. */
  function IndicatorEnd(horizontal: bool, l: Layout): real
  {
    if horizontal then l.left + l.width else l.top + l.height
  }
}

=== FILE: progress.dfy ===
/** Pull-progress calculation: how far the content has been pulled past its
    resting edge, as a fraction of the activation threshold. */
module Progress {
  import opened Wrappers
  import opened Geometry

  /** A `null` indicator end read as a number: JavaScript coerces `null` to 0
      in arithmetic and in `Math.max`. */
  function EndOrZero(end: Option<real>): real
  {
    end.GetOr(0.0)
  }

  /** The distance pulled past the natural resting edge. */
  function PullDistance(axisInset: real, axisOffset: real): real {
    -(axisInset + axisOffset)
  }

  /** Progress is computed only when an explicit distance was given or the
      indicator has been measured; otherwise it stays 0. */
  predicate ThresholdKnown(distance: Option<real>, end: Option<real>) {
    distance.Some? || end.Some?
  }

  /** The activation threshold. An explicit distance wins only when it is
      truthy, so an explicit 0 falls through to twice the part of the
      indicator that sticks out beyond the inset. */
  function Threshold(distance: Option<real>, end: Option<real>, axisInset: real): real
  {
    if distance.Some? && distance.value != 0.0 then distance.value
    else (EndOrZero(end) - axisInset) * 2.0
  }

  /** An explicit distance of 0 is falsy, so it gives the same threshold as
      no explicit distance at all. */
  lemma ZeroDistanceFallsThrough(end: Option<real>, axisInset: real)
    ensures Threshold(Some(0.0), end, axisInset) == Threshold(None, end, axisInset)
  {
  }

  /** Progress of one scroll tick, given the scroll view's orientation, the
      explicit distance, the measured indicator end and the reported inset and
      offset. */
  function PullProgress(horizontal: bool, distance: Option<real>, end: Option<real>,
                        inset: Insets, offset: Point): (r: real)
    ensures 0.0 <= r <= 1.0
    ensures !ThresholdKnown(distance, end) ==> r == 0.0
    ensures (ThresholdKnown(distance, end) &&
             Threshold(distance, end, AxisInset(horizontal, inset)) <= 0.0) ==> r == 1.0
    ensures var t := Threshold(distance, end, AxisInset(horizontal, inset));
            var d := PullDistance(AxisInset(horizontal, inset), AxisOffset(horizontal, offset));
            ThresholdKnown(distance, end) && t > 0.0 ==>
              && (r == 1.0 <==> d >= t)
              && (r == 0.0 <==> d <= 0.0)
              && (0.0 < d < t ==> r * t == d)
  {
    if !ThresholdKnown(distance, end) then 0.0
    else
      var axisInset := AxisInset(horizontal, inset);
      var d := PullDistance(axisInset, AxisOffset(horizontal, offset));
      var t := Threshold(distance, end, axisInset);
      if t > 0.0 then Clamp(d / t) else 1.0
  }

  /** `Math.max(Math.min(x, 1), 0)`. */
  function Clamp(x: real): (r: real)
    ensures 0.0 <= r <= 1.0
    ensures 0.0 <= x <= 1.0 ==> r == x
    ensures x >= 1.0 ==> r == 1.0
    ensures x <= 0.0 ==> r == 0.0
  {
    if x > 1.0 then 1.0 else if x < 0.0 then 0.0 else x
  }

  /** Pulling further never lowers progress: with everything else fixed, a
      smaller offset along the pull axis gives at least as much progress. */
  lemma ProgressMonotone(horizontal: bool, distance: Option<real>, end: Option<real>,
                         inset: Insets, near: Point, far: Point)
    requires AxisOffset(horizontal, far) <= AxisOffset(horizontal, near)
    ensures PullProgress(horizontal, distance, end, inset, near)
            <= PullProgress(horizontal, distance, end, inset, far)
  {
    if ThresholdKnown(distance, end) {
      var axisInset := AxisInset(horizontal, inset);
      var t := Threshold(distance, end, axisInset);
      if t > 0.0 {
        var d1 := PullDistance(axisInset, AxisOffset(horizontal, near));
        var d2 := PullDistance(axisInset, AxisOffset(horizontal, far));
        assert d1 <= d2;
        DivMonotone(d1, d2, t);
      }
    }
  }

  lemma DivMonotone(a: real, b: real, t: real)
    requires a <= b && t > 0.0
    ensures a / t <= b / t
  {
    assert b / t - a / t == (b - a) / t;
  }

  /** Without an explicit distance, an indicator whose end does not reach
      past the inset gives a non-positive threshold and therefore immediate
      full progress. */
  lemma ShallowIndicatorIsImmediatelyReady(horizontal: bool, end: real,
                                           inset: Insets, offset: Point)
    requires end <= AxisInset(horizontal, inset)
    ensures PullProgress(horizontal, None, Some(end), inset, offset) == 1.0
  {
  }

  /** A vertical view with zero inset, pulled 50 points past the top, and an
      indicator ending at 40 has threshold 80 and progress 0.625. */
  lemma ProgressExample()
    ensures Threshold(None, Some(40.0), 0.0) == 80.0
    ensures PullProgress(false, None, Some(40.0), Insets(0.0, 0.0, 0.0, 0.0), Point(0.0, -50.0)) == 0.625
  {
  }
}

=== FILE: session.dfy ===
/** Sequences of events fed to the controller, one handler at a time, and
    what holds across them: every refresh session calls the refresh-start
    callback once and scrolls back once, the state stays well formed, and
    nothing but a new touch revives progress after a release. */
module Session {
  import opened Geometry
  import opened Controller

  /** The events the host delivers, each handled to completion. */
  datatype Event =
    | ResponderGrant
    | ResponderRelease
    | Scroll(scroll: ScrollEvent)
    | RefreshEnd
    | Measured(layout: Layout)

  /** Routes one event to its handler. */
  function Dispatch(p: Props, s: ViewState, ev: Event): Outcome
  {
    match ev
    case ResponderGrant => Outcome(HandleGrant(s), [])
    case ResponderRelease => Outcome(HandleRelease(s), [])
    case Scroll(e) => HandleScroll(p, s, e)
    case RefreshEnd => HandleRefreshEnd(s)
    case Measured(l) => Outcome(HandleMeasured(p, s, l), [])
  }

  /** Handles `evs` in order from `s`, collecting every outward call. */
  function Run(p: Props, s: ViewState, evs: seq<Event>): Outcome
    decreases |evs|
  {
    if evs == [] then Outcome(s, [])
    else
      var first := Dispatch(p, s, evs[0]);
      var rest := Run(p, first.state, evs[1..]);
      Outcome(rest.state, first.effects + rest.effects)
  }

  function Starts(effects: seq<Effect>): nat {
    multiset(effects)[RefreshStart]
  }

  function ScrollBacks(effects: seq<Effect>): nat {
    multiset(effects)[ScrollBack]
  }

  function Flag(b: bool): nat {
    if b then 1 else 0
  }

  /** A well-formed state: progress is a fraction, and a touch can only be
      marked as begun during a refresh while a touch is tracked. */
  predicate Valid(s: ViewState) {
    && 0.0 <= s.pullToRefreshProgress <= 1.0
    && (s.trackingAfterRefreshing ==> s.tracking)
  }

  /** One event opens a session (refresh-start call) exactly when it turns
      `refreshing` on, and closes one (scroll back) exactly when it turns it
      off. */
  lemma DispatchBalance(p: Props, s: ViewState, ev: Event)
    ensures var o := Dispatch(p, s, ev);
            && Starts(o.effects) == Flag(!s.refreshing && o.state.refreshing)
            && ScrollBacks(o.effects) == Flag(s.refreshing && !o.state.refreshing)
  {
  }

  /** One event makes no call and keeps `refreshing`, or makes the single
      call that flips it: a start turning it on, a scroll back turning it
      off. */
  lemma DispatchShape(p: Props, s: ViewState, ev: Event)
    ensures var o := Dispatch(p, s, ev);
            || (o.effects == [] && o.state.refreshing == s.refreshing)
            || (o.effects == [RefreshStart] && !s.refreshing && o.state.refreshing)
            || (o.effects == [ScrollBack] && s.refreshing && !o.state.refreshing)
  {
  }

  /** The call expected at position `i` of the calls made from a state whose
      `refreshing` flag is `refreshing`: starts and scroll backs alternate,
      beginning with whichever flips that flag. */
  function Expected(refreshing: bool, i: nat): Effect {
    if (i % 2 == 0) == refreshing then ScrollBack else RefreshStart
  }

  predicate Alternating(effects: seq<Effect>, refreshing: bool) {
    forall i :: 0 <= i < |effects| ==> effects[i] == Expected(refreshing, i)
  }

  /** Over any run the outward calls alternate between refresh starts and
      scroll backs, and the final `refreshing` flag is the initial one
      flipped once per call. */
  lemma {:induction false} RunAlternates(p: Props, s: ViewState, evs: seq<Event>)
    ensures var o := Run(p, s, evs);
            && Alternating(o.effects, s.refreshing)
            && (o.state.refreshing <==> (s.refreshing != (|o.effects| % 2 == 1)))
    decreases |evs|
  {
    if evs != [] {
      var first := Dispatch(p, s, evs[0]);
      var rest := Run(p, first.state, evs[1..]);
      DispatchShape(p, s, evs[0]);
      RunAlternates(p, first.state, evs[1..]);
      StepAlternates(s.refreshing, first.effects, first.state.refreshing,
                     rest.effects, rest.state.refreshing);
    }
  }

  /** One event's calls followed by the rest of the run's calls alternate,
      given the shape of the event's calls and the rest's alternation. */
  lemma StepAlternates(r0: bool, head: seq<Effect>, r1: bool, tail: seq<Effect>, r2: bool)
    requires || (head == [] && r1 == r0)
             || (head == [RefreshStart] && !r0 && r1)
             || (head == [ScrollBack] && r0 && !r1)
    requires Alternating(tail, r1)
    requires r2 <==> (r1 != (|tail| % 2 == 1))
    ensures Alternating(head + tail, r0)
    ensures r2 <==> (r0 != (|head + tail| % 2 == 1))
  {
    if head != [] {
      AlternatingCons(head[0], tail, r0);
      assert head + tail == [head[0]] + tail;
    } else {
      assert head + tail == tail;
    }
  }

  /** Putting the call that flips `refreshing` in front of calls that
      alternate from the flipped flag gives calls that alternate from the
      original flag. */
  lemma AlternatingCons(x: Effect, rest: seq<Effect>, refreshing: bool)
    requires x == Expected(refreshing, 0)
    requires Alternating(rest, !refreshing)
    ensures Alternating([x] + rest, refreshing)
  {
    var all := [x] + rest;
    forall i | 0 <= i < |all|
      ensures all[i] == Expected(refreshing, i)
    {
      if i > 0 {
        assert all[i] == rest[i - 1];
        assert (i % 2 == 0) == ((i - 1) % 2 != 0);
      }
    }
  }

  /** Over any run, refresh-start calls and scroll backs balance up to the
      change in `refreshing`: each session starts once and ends once. */
  lemma {:induction false} RunBalance(p: Props, s: ViewState, evs: seq<Event>)
    ensures var o := Run(p, s, evs);
            Starts(o.effects) + Flag(s.refreshing) == ScrollBacks(o.effects) + Flag(o.state.refreshing)
    decreases |evs|
  {
    if evs != [] {
      var first := Dispatch(p, s, evs[0]);
      var rest := Run(p, first.state, evs[1..]);
      DispatchBalance(p, s, evs[0]);
      RunBalance(p, first.state, evs[1..]);
      assert multiset(first.effects + rest.effects) == multiset(first.effects) + multiset(rest.effects);
    }
  }

  /** From the initial state, the calls alternate: a refresh start, then the
      scroll back that ends that refresh, then the next start, and so on. So
      the refresh-start callback is never called twice in one session, and
      it has been called once more than the view scrolled back exactly when
      a refresh is running. */
  lemma StartsOncePerSession(p: Props, evs: seq<Event>)
    ensures var o := Run(p, Init(), evs);
            forall i :: 0 <= i < |o.effects| ==>
              o.effects[i] == (if i % 2 == 0 then RefreshStart else ScrollBack)
    ensures var o := Run(p, Init(), evs);
            && Starts(o.effects) == ScrollBacks(o.effects) + Flag(o.state.refreshing)
            && Starts(o.effects) <= ScrollBacks(o.effects) + 1
  {
    RunBalance(p, Init(), evs);
    RunAlternates(p, Init(), evs);
  }

  /** Every handler keeps the state well formed. */
  lemma DispatchPreservesValid(p: Props, s: ViewState, ev: Event)
    requires Valid(s)
    ensures Valid(Dispatch(p, s, ev).state)
  {
  }

  /** Every run from a well-formed state ends in a well-formed state. */
  lemma {:induction false} RunPreservesValid(p: Props, s: ViewState, evs: seq<Event>)
    requires Valid(s)
    ensures Valid(Run(p, s, evs).state)
    decreases |evs|
  {
    if evs != [] {
      DispatchPreservesValid(p, s, evs[0]);
      RunPreservesValid(p, Dispatch(p, s, evs[0]).state, evs[1..]);
    }
  }

  /** In every reachable state the state is well formed, and room for the
      indicator is reserved without a running refresh only while a touch
      that began during a refresh is still down. */
  lemma ReachableReservation(p: Props, evs: seq<Event>)
    ensures var s := Run(p, Init(), evs).state;
            && Valid(s)
            && (ReservesIndicatorSpace(s) && !s.refreshing ==> s.tracking)
  {
    RunPreservesValid(p, Init(), evs);
  }

  /** Events other than a new touch. */
  predicate NoGrant(evs: seq<Event>) {
    forall i :: 0 <= i < |evs| ==> !evs[i].ResponderGrant?
  }

  /** After a release, and until the next touch, progress stays where it was
      and the refresh-start callback is never called. */
  lemma {:induction false} FrozenWhileNotTracking(p: Props, s: ViewState, evs: seq<Event>)
    requires !s.tracking
    requires NoGrant(evs)
    ensures !Run(p, s, evs).state.tracking
    ensures Run(p, s, evs).state.pullToRefreshProgress == s.pullToRefreshProgress
    ensures RefreshStart !in Run(p, s, evs).effects
    decreases |evs|
  {
    if evs != [] {
      var first := Dispatch(p, s, evs[0]);
      assert !evs[0].ResponderGrant?;
      assert NoGrant(evs[1..]) by {
        forall i | 0 <= i < |evs[1..]|
          ensures !evs[1..][i].ResponderGrant?
        {
          assert evs[1..][i] == evs[i + 1];
        }
      }
      FrozenWhileNotTracking(p, first.state, evs[1..]);
    }
  }
}

=== FILE: wrappers.dfy ===
/** The optional values the controller keeps: a measurement that has not
    resolved yet, a property the caller did not pass. */
module Wrappers {

  datatype Option<+T> = None | Some(value: T) {

    /** Returns the value held in Some, or `default` when None. */
    function GetOr(default: T): T
    {
      match this
      case Some(v) => v
      case None => default
    }
  }
}
